=== FILE: README.md ===
# Goh code emission engine, in Dafny

Goh compiles HTML templates to Go source. This project models its code
emission engine (`src/generator.go`), the part that turns a parsed template
into Go source text. The template arrives as an ordered sequence of blocks plus
an optional render-function declaration. The model has three parts:

- **Render-function validator** (`generateFunction`, module `Validator`). It
  reads the parameter list of the declared function, which is given as an
  abstract parse result. The last parameter must have type `bytes.Buffer` or
  `*bytes.Buffer`, with at most one pointer layer stripped. On success it
  returns the declaration text unchanged and the last name bound to that
  parameter, or `""` when the parameter is unnamed.
- **Value formatters** (`generateValue` and `generateEscapedHTML`, modules
  `Statements` and `Formatter`). Each trims a block's expression and emits at
  most one Go statement into the pending buffer. A boolean adds 5 to
  `ConstantLength`. For a type with no handler, the escaping path panics and
  the non-escaping path does nothing.
- **Emission engine** (`GenerateCode`, module `Emitter`). It writes the
  package clause and the import list, and stops there when no function is
  declared. Otherwise it writes the preamble, the declaration and
  `{\nNAME.Grow(`. It then dispatches every block in order into the pending
  buffer. Last, it writes the final `ConstantLength` as the `Grow` argument,
  the buffered statements and `}\n`.

Everything is a pure function over immutable datatypes:

- The output file and the `bytes.Buffer` are strings.
- A Go panic is a `Panicked` outcome that carries the text already written to
  the file.
- `Compile` is `NewGenerator` without its I/O. It applies the `"template"`
  default package name, writes the "DO NOT EDIT" notice and gives the
  generator an empty pending buffer. `NewGenerator` does not reset
  `ConstantLength`, so `Compile` takes the starting length as a parameter.

The lemmas relate the generated text to definitions that do not mention
the generator:

- Decoders read every generated statement back into its value type and
  expression. The one exception is an escaped String expression that
  starts with `Goh.Bytes2String(` and ends with `)`: it reads back as a Bytes
  value, whether or not it is a single call (`Goh.Bytes2String(a) + g(b)` is
  one such expression).
- A block-by-block reference (`Contribution`, `Accumulated`, `CountedBools`)
  describes what the dispatch loop produces.
- `TrimSpace` is characterised by the decomposition it finds.
- The `Grow` numeral reads back as the number it was printed from.

Sources:

- The block and value-type constants (`TypeCode`…`TypeExtend`,
  `VarTypeString`…`VarTypeAny`) are defined in a Go file that is not part of
  this model. They are modelled as enumerations. `Unrecognized(code)` and
  `Unsupported(code)` stand for every other integer. The model does not
  forbid a `code` equal to a named constant; such a value behaves as an
  unknown kind or type.
- The parser that produces the blocks (`Parser.Parse`) is not part of this
  model.

Points where the model follows the code rather than the obvious reading:

- The "DO NOT EDIT" notice is written by `NewGenerator`, not by
  `GenerateCode`.
- A declaration block that parses to no declarations is not a returned error.
  It is the runtime panic of indexing `Decls[0]`.
- `GenerateCode` does not reset `ConstantLength` or the pending buffer. It
  starts from whatever the generator holds (`Generator.state`). `Compile`,
  like `NewGenerator`, empties the pending buffer and keeps the given
  `ConstantLength`.
- A wrong buffer type is reported with the same message as an empty parameter
  list (see Findings).

## Model

| member | source | states |
|---|---|---|
| Text.TrimSpace | src/generator.go:161 | the trimmed expression is empty exactly when the content is all white space (Go's `unicode.IsSpace` set); otherwise neither end is white space |
| Text.TrimSpaceDecompose | src/generator.go:161 | every content is white space, then the trimmed expression, then white space |
| Text.TrimSpaceUnique | src/generator.go:205 | trimming white space + a core with non-space ends + white space returns exactly that core |
| Text.TrimSpaceIdempotent | src/generator.go:161 | trimming an already trimmed expression changes nothing |
| Text.NatToDecimal | src/generator.go:107 | `strconv.Itoa` of a non-negative length is a non-empty digit string with no leading zero |
| Text.NatToDecimalRoundTrip | src/generator.go:107 | the `Grow` numeral reads back as the number it was printed from |
| Text.NatToDecimalInjective | src/generator.go:107 | different lengths give different `Grow` arguments |
| Text.IntToDecimal | src/generator.go:245 | the `%d` verb prints a minus sign exactly for negative codes, followed by the numeral of the code's magnitude, and agrees with `Itoa` otherwise |
| Text.IntToDecimalDigits | src/generator.go:245 | after the first character, the printed code consists of digits only |
| Text.IntToDecimalInjective | src/generator.go:245 | different codes give different printed codes |
| Statements.FormatCall | src/generator.go:176-191 | the Int, Uint, Bool and Any rows, shared by both tables, exist for exactly those four types |
| Statements.ValueStatement | src/generator.go:167-199 | the non-escaping table has a statement for exactly the six known types |
| Statements.EscapedStatement | src/generator.go:211-242 | the escaping table has a statement for exactly the six known types, and the String and Bytes rows go through `Goh.EscapeHTML` |
| Statements.ParseFormatCall | src/generator.go:176-191 | whatever the decoder of the shared rows accepts was generated by those rows from the type and expression it returns |
| Statements.ParseValueStatement | src/generator.go:167-193 | whatever the decoder accepts was generated by the non-escaping table from the type and expression it returns |
| Statements.ParseEscapedStatement | src/generator.go:211-237 | whatever the decoder accepts was generated by the escaping table from the type and expression it returns |
| Statements.FormatCallRoundTrip | src/generator.go:176-191 | each shared-row statement decodes back to its own type and expression |
| Statements.ValueStatementRoundTrip | src/generator.go:167-193 | with a dot-free buffer name, each non-escaping statement decodes back to its own type and expression |
| Statements.EscapedStatementRoundTrip | src/generator.go:211-237 | each escaping statement decodes back to its own type and expression, unless a String expression starts with `Goh.Bytes2String(` and ends with `)` |
| Statements.EscapedBytesCollide | src/generator.go:214-218 | for every `x`, escaping the String `Goh.Bytes2String(` + `x` + `)` emits the same statement as escaping the Bytes value `x` |
| Statements.SharedStatements | src/generator.go:167-237 | the two tables give the same statement exactly for the types other than String and Bytes |
| Formatter.GenerateValue | src/generator.go:159-200 | appends only; `ConstantLength` rises by 5 exactly for a non-blank Bool; a blank content or a type without a handler leaves the state unchanged and does not fail |
| Formatter.GenerateValueAppends | src/generator.go:159-200 | a non-blank content of a known type appends exactly the non-escaping table's statement for the trimmed expression |
| Formatter.GenerateValueDecodes | src/generator.go:159-200 | when the buffer name has no dot, the appended text reads back as the block's type and trimmed expression |
| Formatter.GenerateEscapedHTML | src/generator.go:203-247 | fails exactly for a non-blank content of an unsupported type, naming its code; otherwise appends only, adds 5 exactly for a non-blank Bool; a blank content is a no-op |
| Formatter.GenerateEscapedHTMLAppends | src/generator.go:203-242 | a non-blank content of a known type succeeds and appends exactly the escaping table's statement for the trimmed expression, with no exception |
| Formatter.GenerateEscapedHTMLDecodes | src/generator.go:203-242 | the appended text reads back as the block's type and trimmed expression, unless a String expression starts with `Goh.Bytes2String(` and ends with `)` |
| Formatter.FormattersAgree | src/generator.go:159-247 | the two formatters have the same effect exactly for blank content or the Int, Uint, Bool and Any types |
| Formatter.UnsupportedTypeAsymmetry | src/generator.go:195-246 | for an unsupported type with non-blank content, the escaping path panics while the non-escaping path leaves the state unchanged |
| Formatter.FormattersIgnorePadding | src/generator.go:160-164 | surrounding white space in a block's content does not change either formatter's effect |
| Validator.CheckBufferType | src/generator.go:136-149 | the last parameter's type is accepted exactly when it is `bytes.Buffer` or `*bytes.Buffer`; it is the assertion panic exactly when the type, with one pointer layer stripped, is a selector on something other than an identifier; every other refusal is InvalidBufferParameter |
| Validator.ValidateFunction | src/generator.go:114-156 | succeeds exactly for a parsed first declaration that is a function whose last parameter has a buffer type; returns the content unchanged and the last name bound by the last parameter; a parse error, no declarations, a non-function and an empty parameter list each have their own error |
| Validator.ValidateFunctionBufferError | src/generator.go:134-148 | a wrong last-parameter type yields the assertion panic for a selector on a non-identifier, and InvalidBufferParameter for every other wrong type |
| Validator.DoublePointerRejected | src/generator.go:136-144 | `**bytes.Buffer` is refused, because only one pointer layer is stripped |
| Validator.OnlyLastParameterMatters | src/generator.go:135-136 | the parameters before the last one do not affect the outcome |
| Validator.ValidatorExamples | src/generator.go:129-155 | no parameters is an error, an `int` buffer is refused, and a named `*bytes.Buffer` or `bytes.Buffer` `w` yields `w` |
| Validator.UnnamedBufferAccepted | src/generator.go:151-155 | an unnamed buffer parameter is accepted with an empty buffer name |
| Validator.SourceMessage | src/generator.go:126-147 | as written, the empty-list and wrong-type errors carry the same message |
| Validator.SourceMessageMisreportsWrongType | src/generator.go:140-148 | as written, an `int` buffer parameter is reported as an empty parameter list |
| Validator.Message | src/generator.go:140-148 | a corrected message differs from the Go code's exactly for the wrong-type error |
| Validator.MessageDistinguishesReturnedErrors | src/generator.go:124-149 | with the corrected messages, different validator errors print different messages |
| Emitter.EmitBlocks | src/generator.go:90-105 | the dispatch loop only appends to the pending buffer and never lowers `ConstantLength` |
| Emitter.EmitBlockSpec | src/generator.go:92-104 | one block panics exactly when it is an HTML or Escape block with non-blank content of an unsupported type; otherwise it appends its contribution and adds 5 exactly for a counted boolean |
| Emitter.EmitBlocksSucceeds | src/generator.go:90-105 | without an aborting block, the loop appends the contributions of all blocks in order and adds 5 per non-blank Bool value, escape or HTML block |
| Emitter.EmitBlocksPanics | src/generator.go:90-105 | the loop panics exactly when some block aborts, with the type code of the first aborting block |
| Emitter.EmitBlocksAppend | src/generator.go:90-91 | running the loop over two block sequences in a row is running it over their concatenation |
| Emitter.WithoutExtend | src/generator.go:102-103 | the filtered sequence holds exactly the blocks of the input that are not Extend blocks |
| Emitter.WithoutExtendSingle | src/generator.go:102-103 | a single block is kept exactly when it is not an Extend block |
| Emitter.WithoutExtendAppend | src/generator.go:90-103 | the filter of a concatenation is the concatenation of the filters, so with the single-block case the kept blocks stay in their order |
| Emitter.ExtendBlocksInert | src/generator.go:102-103 | removing the Extend blocks leaves the loop's outcome unchanged |
| Emitter.GenerateCode | src/generator.go:72-111 | the output starts with the header; without a function it is the header alone; a refused declaration panics after the header; a complete output ends with `}\n` |
| Emitter.HeaderOnlyWithoutFunction | src/generator.go:73-79 | without a function the output is exactly `package NAME` and the import list, whatever the blocks, preamble and state |
| Emitter.OutputLayout | src/generator.go:81-110 | on success the output is the header, preamble, declaration, `{\nNAME.Grow(`, the final length, `)\n`, every block's statements in order, and `}\n` |
| Emitter.GrowArgument | src/generator.go:88-108 | the `Grow` argument is the numeral of the starting length plus 5 per counted boolean |
| Emitter.PanicCases | src/generator.go:81-110 | with a valid declaration, generation panics exactly when some block aborts, and the file then holds the text up to `Grow(` and no statement |
| Emitter.OutputIgnoresExtend | src/generator.go:102-103 | Extend blocks do not change the output |
| Emitter.DefaultPackageName | src/generator.go:48-50 | an empty package name becomes a non-empty default; a given name is kept |
| Emitter.Compile | src/generator.go:47-67 | for any starting `ConstantLength`, the generated file starts with the notice and the header; without a function it never panics |
| Emitter.CompileGrowArgument | src/generator.go:47-108 | the `Grow` argument is the starting `ConstantLength` plus 5 times the number of counted booleans, so 5 times that number for a generator used once |
| Emitter.CompileEmitted | src/generator.go:65-67 | a complete generation compiles to the notice followed by the generated text |
| Emitter.PanicMessageCollisions | src/generator.go:81-84 | as written (`err.Error()` for a refusal, the `%d` text of line 245 for an unsupported type), two different panics other than parse failures print the same text only when they are the empty-list and the wrong-type refusals |
| Emitter.SourceCollision | src/generator.go:124-148 | as written, two different returned errors other than parse failures share a message only when they are the empty-list and the wrong-type refusals |
| Emitter.SourceVersusUnsupported | src/generator.go:81-84 | as written, no validator message reads as an unsupported-type panic |
| Emitter.PanicMessageMisreportsWrongType | src/generator.go:83 | as written, a wrong buffer type and an empty parameter list panic with the same text |
| Emitter.CorrectedPanicMessage | src/generator.go:81-84 | the corrected panic text differs from the Go code's exactly for a wrong buffer type |
| Emitter.CorrectedPanicMessagesDistinct | src/generator.go:81-84 | with the corrected messages, two panics other than parse failures print the same text only when they are the same panic, including the unsupported-type panics of line 245 |
| Emitter.EndToEndExample | src/generator.go:72-110 | for code `x := 1`, value `int` `x` and literal `<b>` under `func Render(w *bytes.Buffer)`: the exact generated file, with `Grow(0)` |

## Left out

- `executeCommand`: runs an external process. Process execution is outside the model.
- `NewGenerator`: creates the output file, joins paths, calls `Parser.Parse` and prints to the console. Only its package-name default and the notice it writes are kept, in `Compile`.
- Go's parser (`parser.ParseFile`): the declaration block carries an abstract parse result (`ParseResult`). A parse error is an opaque message.
- The failed `*ast.Ident` assertion: Go's panic text for the failed `*ast.Ident` assertion names the actual dynamic type. The model uses one fixed text because the abstract syntax does not carry that type.
- The mechanics of `*os.File` and `bytes.Buffer` (`WriteString`, `ReadFrom`): both are modelled as strings that only grow.
- The runtime helpers (`Goh.EscapeHTML`, `Goh.FormatInt`, …): they appear only as names inside generated text.
- Emitter.GenerateCode: `ConstantLength` is a natural number. Go `int` overflow and a negative starting value set by a caller are not modelled.
- Text.TrimSpace: works on Unicode characters. Go's handling of invalid UTF-8 bytes is not modelled.
- The formatters trim `block.Content` in place through the block pointer. The model trims a copy instead. `RootBlocks` may hold the same block twice, but a second visit sees content that is already trimmed, and trimming again changes nothing for either formatter (`Formatter.FormattersIgnorePadding`).
- Statements.ValueStatementRoundTrip: holds only for buffer names without a dot. A dotted name can make a direct write look like a `Goh.F…` call.
- Formatter.GenerateEscapedHTMLDecodes: requires that a String expression does not both start with `Goh.Bytes2String(` and end with `)`, for the reason given in the next line. `Formatter.GenerateEscapedHTMLAppends` states the appended text for every expression.
- Statements.EscapedStatementRoundTrip: excludes String expressions that start with `Goh.Bytes2String(` and end with `)`, single calls or not (`Goh.Bytes2String(a) + g(b)` is excluded too). Those emit exactly the Bytes row's statement (`EscapedBytesCollide`).

## Findings

| source | as written | input that shows it | evidently intended | confidence | as-written member | corrected member |
|---|---|---|---|---|---|---|
| src/generator.go:140-148 | a last parameter that is not `bytes.Buffer` is reported as "function parameters should not be empty" | `func Render(x int)` | a message saying the last parameter must be a `bytes.Buffer` | medium, not executed | Validator.SourceMessageMisreportsWrongType, Emitter.PanicMessageCollisions | Validator.MessageDistinguishesReturnedErrors, Emitter.CorrectedPanicMessagesDistinct |

=== FILE: blocks.dfy ===
/** The template blocks the external parser hands to the generator, and the
    generator's per-run accumulation state. */
module Blocks {

  /** BlockType. Code is verbatim Go, HTML is static template text, Escape and
      Value are expressions written with and without HTML escaping, Extend is
      reserved. Any other integer falls outside the dispatch and is ignored.
      The model treats `code` as that other integer but does not forbid a
      value that coincides with a named constant: the operations only look at
      which constructor a kind is, so such a value would behave as an unknown
      kind, never as the constant it collides with. */
  datatype BlockKind = Code | HTML | Escape | Value | Extend | Unrecognized(code: int)

  /** VariableType of a value-bearing block. Unsupported stands for every
      integer outside the six constants the formatters know. As with
      Unrecognized, `code` is not kept apart from those six integers; the
      operations use it only to report it in the panic message. */
  datatype ValueType = String | Bytes | Int | Uint | Bool | Any | Unsupported(code: int)

  datatype Block = Block(kind: BlockKind, content: string, valueType: ValueType)

  /** ConstantLength and the pending statement buffer of a CodeGenerator. */
  datatype GenState = GenState(constantLength: nat, buffer: string)

  /** The state of a freshly initialised generator. */
  const Fresh := GenState(0, "")
}

=== FILE: emitter.dfy ===
/** The code emission engine (GenerateCode): header, render-function
    declaration, the Grow call whose argument is back-filled with the final
    ConstantLength, the statements of every block in order, and the closing
    brace. The output file is modelled as the text written to it. */
module Emitter {
  import opened Results
  import opened Text
  import opened Blocks
  import opened Validator
  import opened Statements
  import opened Formatter

  /** The two ways generation aborts with a panic. */
  datatype Fault = InvalidFunction(error: FunctionError) | FormatPanic(cause: FormatError)

  /** The outcome of GenerateCode: the complete text, or the text already
      written to the file when the panic struck. */
  datatype Emission = Emitted(text: string) | Panicked(written: string, fault: Fault) {
    /** What the output file holds afterwards. */
    function Written(): string {
      if Emitted? then text else written
    }
  }

  /** The CodeGenerator fields GenerateCode reads. `state` is the
      ConstantLength and pending buffer it starts from. */
  datatype Generator = Generator(
    definedFunction: Option<FunctionBlock>,
    rootBlocks: seq<Block>,
    rawCode: string,
    packageName: string,
    state: GenState)

  const ImportBlock := "\nimport (\n\t\"bytes\"\n\t\"github.com/OblivionOcean/Goh/utils\"\n)\n\n"

  /** The package clause and the fixed import list. */
  function Header(packageName: string): string {
    "package " + packageName + ImportBlock
  }

  /** The text before the Grow argument: preamble, declaration, the opening
      brace and the start of the Grow call on the buffer parameter. */
  function Opening(rawCode: string, sig: Signature): string {
    rawCode + sig.code + "{\n" + sig.bufferName + ".Grow("
  }

  /** One iteration of the dispatch loop. */
  function EmitBlock(st: GenState, b: Block, bufferName: string): Result<GenState, FormatError> {
    match b.kind
    case Code => Success(GenState(st.constantLength, st.buffer + b.content + "\n"))
    case HTML => GenerateEscapedHTML(st, b, bufferName)
    case Escape => GenerateEscapedHTML(st, b, bufferName)
    case Value => Success(GenerateValue(st, b, bufferName))
    case Extend => Success(st)
    case Unrecognized(_) => Success(st)
  }

  /** The dispatch loop over the root blocks, stopping at the first panic. */
  function EmitBlocks(blocks: seq<Block>, st: GenState, bufferName: string): (r: Result<GenState, FormatError>)
    ensures r.Success? ==> st.buffer <= r.value.buffer
    ensures r.Success? ==> st.constantLength <= r.value.constantLength
    decreases |blocks|
  {
    if blocks == [] then Success(st)
    else
      var next :- EmitBlock(st, blocks[0], bufferName);
      EmitBlocks(blocks[1..], next, bufferName)
  }

  /** GenerateCode. */
  function GenerateCode(g: Generator): (r: Emission)
    ensures Header(g.packageName) <= r.Written()
    ensures g.definedFunction.None? ==> r == Emitted(Header(g.packageName))
    ensures g.definedFunction.Some? && ValidateFunction(g.definedFunction.value).Failure? ==>
      r == Panicked(Header(g.packageName), InvalidFunction(ValidateFunction(g.definedFunction.value).error))
    ensures r.Emitted? && g.definedFunction.Some? ==> r.text[|r.text| - 2..] == "}\n"
  {
    var header := Header(g.packageName);
    match g.definedFunction
    case None => Emitted(header)
    case Some(f) =>
      match ValidateFunction(f)
      case Failure(e) => Panicked(header, InvalidFunction(e))
      case Success(sig) =>
        var opening := header + Opening(g.rawCode, sig);
        match EmitBlocks(g.rootBlocks, g.state, sig.bufferName)
        case Failure(e) => Panicked(opening, FormatPanic(e))
        case Success(st) => Emitted(Assemble(opening, st))
  }

  /** The text after the blocks have been processed: the Grow argument
      back-filled with the final ConstantLength, the pending statements, and
      the closing brace. */
  function Assemble(opening: string, st: GenState): string {
    opening + NatToDecimal(st.constantLength) + ")\n" + st.buffer + "}\n"
  }

  /** The assembled text starts with the opening and the Grow argument. */
  lemma AssemblePrefix(opening: string, st: GenState)
    ensures opening + NatToDecimal(st.constantLength) + ")\n" <= Assemble(opening, st)
  {
    var head := opening + NatToDecimal(st.constantLength) + ")\n";
    AppendAssoc(head, st.buffer, "}\n");
    PrefixOfAppend(head, st.buffer + "}\n");
  }

  // ---------------------------------------------------------------------
  // Reference accounting: what each block contributes on its own

  /** A non-blank block that the escaping path receives with an unsupported type. */
  predicate Aborts(b: Block) {
    (b.kind == HTML || b.kind == Escape) && !AllSpace(b.content) && b.valueType.Unsupported?
  }

  /** A non-blank boolean routed through either formatter. */
  predicate CountedBool(b: Block) {
    b.kind in {HTML, Escape, Value} && b.valueType == Bool && !AllSpace(b.content)
  }

  /** The statement text one block adds to the pending buffer, when it does not abort. */
  function Contribution(b: Block, bufferName: string): string {
    if b.kind == Code then b.content + "\n"
    else if AllSpace(b.content) then ""
    else if b.kind == HTML || b.kind == Escape then EscapedStatement(b.valueType, TrimSpace(b.content), bufferName).GetOr("")
    else if b.kind == Value then ValueStatement(b.valueType, TrimSpace(b.content), bufferName).GetOr("")
    else ""
  }

  /** The contributions of all blocks, in block order. */
  function Accumulated(blocks: seq<Block>, bufferName: string): string {
    if blocks == [] then "" else Contribution(blocks[0], bufferName) + Accumulated(blocks[1..], bufferName)
  }

  /** The number of counted booleans. */
  function CountedBools(blocks: seq<Block>): nat {
    if blocks == [] then 0 else (if CountedBool(blocks[0]) then 1 else 0) + CountedBools(blocks[1..])
  }

  predicate NoAbort(blocks: seq<Block>) {
    forall i :: 0 <= i < |blocks| ==> !Aborts(blocks[i])
  }

  /** One block, in isolation: it panics exactly when it aborts, and
      otherwise appends its contribution and counts 5 for a boolean. */
  lemma EmitBlockSpec(st: GenState, b: Block, bufferName: string)
    ensures EmitBlock(st, b, bufferName).Failure? <==> Aborts(b)
    ensures Aborts(b) ==> EmitBlock(st, b, bufferName) == Failure(UnsupportedValueType(b.valueType.code))
    ensures !Aborts(b) ==>
      EmitBlock(st, b, bufferName)
      == Success(GenState(st.constantLength + (if CountedBool(b) then 5 else 0), st.buffer + Contribution(b, bufferName)))
  {
    if b.kind in {HTML, Escape} && !AllSpace(b.content) && !b.valueType.Unsupported? {
      GenerateEscapedHTMLAppends(st, b, bufferName);
    } else if b.kind == Value && !AllSpace(b.content) && !b.valueType.Unsupported? {
      GenerateValueAppends(st, b, bufferName);
    } else if b.kind == Code {
      assert st.buffer + b.content + "\n" == st.buffer + (b.content + "\n");
    } else {
      assert st.buffer + "" == st.buffer;
    }
  }

  /** One step of the loop. */
  lemma EmitBlocksStep(blocks: seq<Block>, st: GenState, bufferName: string)
    requires blocks != []
    ensures EmitBlocks(blocks, st, bufferName) ==
      match EmitBlock(st, blocks[0], bufferName)
      case Failure(e) => Failure(e)
      case Success(next) => EmitBlocks(blocks[1..], next, bufferName)
  {
  }

  /** The state the loop reaches, by the reference accounting: ConstantLength
      raised by 5 per counted boolean and the contributions appended in order. */
  function Expected(blocks: seq<Block>, st: GenState, bufferName: string): GenState {
    GenState(st.constantLength + 5 * CountedBools(blocks), st.buffer + Accumulated(blocks, bufferName))
  }

  /** Without an aborting block, the loop ends in the expected state. */
  lemma {:induction false} EmitBlocksSucceeds(blocks: seq<Block>, st: GenState, bufferName: string)
    requires NoAbort(blocks)
    ensures EmitBlocks(blocks, st, bufferName) == Success(Expected(blocks, st, bufferName))
  {
    if blocks == [] {
      assert st.buffer + Accumulated(blocks, bufferName) == st.buffer;
    } else {
      NoAbortTail(blocks);
      var next := SucceedsFirst(blocks, st, bufferName);
      EmitBlocksSucceeds(blocks[1..], next, bufferName);
      SucceedsCombine(blocks, st, next, bufferName);
    }
  }

  /** An abort-free sequence stays abort-free without its first block. */
  lemma NoAbortTail(blocks: seq<Block>)
    requires blocks != [] && NoAbort(blocks)
    ensures !Aborts(blocks[0]) && NoAbort(blocks[1..])
  {
    var rest := blocks[1..];
    forall i | 0 <= i < |rest| ensures !Aborts(rest[i]) { assert rest[i] == blocks[i + 1]; }
  }

  /** The state after the first block of a loop whose first block does not abort. */
  lemma SucceedsFirst(blocks: seq<Block>, st: GenState, bufferName: string) returns (next: GenState)
    requires blocks != [] && !Aborts(blocks[0])
    ensures next == GenState(st.constantLength + (if CountedBool(blocks[0]) then 5 else 0),
                             st.buffer + Contribution(blocks[0], bufferName))
    ensures EmitBlocks(blocks, st, bufferName) == EmitBlocks(blocks[1..], next, bufferName)
  {
    EmitBlockSpec(st, blocks[0], bufferName);
    next := EmitBlock(st, blocks[0], bufferName).value;
    EmitBlocksStep(blocks, st, bufferName);
  }

  /** Folding the first block's share into the totals of the rest. */
  lemma SucceedsCombine(blocks: seq<Block>, st: GenState, next: GenState, bufferName: string)
    requires blocks != []
    requires next == GenState(st.constantLength + (if CountedBool(blocks[0]) then 5 else 0),
                              st.buffer + Contribution(blocks[0], bufferName))
    ensures Expected(blocks[1..], next, bufferName) == Expected(blocks, st, bufferName)
  {
    AppendAssoc(st.buffer, Contribution(blocks[0], bufferName), Accumulated(blocks[1..], bufferName));
  }

  /** The loop panics exactly when some block aborts, and then with the type
      of the first such block. */
  lemma {:induction false} EmitBlocksPanics(blocks: seq<Block>, st: GenState, bufferName: string)
    ensures EmitBlocks(blocks, st, bufferName).Failure? <==> !NoAbort(blocks)
    ensures EmitBlocks(blocks, st, bufferName).Failure? ==>
      exists i :: 0 <= i < |blocks| && Aborts(blocks[i]) && NoAbort(blocks[..i])
        && EmitBlocks(blocks, st, bufferName).error == UnsupportedValueType(blocks[i].valueType.code)
  {
    if blocks != [] {
      NoAbortCons(blocks);
      if Aborts(blocks[0]) {
        AbortsFirst(blocks, st, bufferName);
        assert NoAbort(blocks[..0]);
      } else {
        var next := SucceedsFirst(blocks, st, bufferName);
        EmitBlocksPanics(blocks[1..], next, bufferName);
        if EmitBlocks(blocks, st, bufferName).Failure? {
          var j :| 0 <= j < |blocks[1..]| && Aborts(blocks[1..][j]) && NoAbort(blocks[1..][..j])
            && EmitBlocks(blocks[1..], next, bufferName).error == UnsupportedValueType(blocks[1..][j].valueType.code);
          PrefixShift(blocks, j);
        }
      }
    }
  }

  /** An abort-free sequence is one whose first block does not abort and
      whose remainder is abort-free. */
  lemma NoAbortCons(blocks: seq<Block>)
    requires blocks != []
    ensures NoAbort(blocks) <==> !Aborts(blocks[0]) && NoAbort(blocks[1..])
  {
    if !Aborts(blocks[0]) && NoAbort(blocks[1..]) {
      forall i | 0 <= i < |blocks| ensures !Aborts(blocks[i]) {
        if i > 0 { assert blocks[i] == blocks[1..][i - 1]; }
      }
    }
    if NoAbort(blocks) {
      NoAbortTail(blocks);
    }
  }

  /** A loop whose first block aborts panics at once with that block's type. */
  lemma AbortsFirst(blocks: seq<Block>, st: GenState, bufferName: string)
    requires blocks != [] && Aborts(blocks[0])
    ensures EmitBlocks(blocks, st, bufferName) == Failure(UnsupportedValueType(blocks[0].valueType.code))
  {
    EmitBlockSpec(st, blocks[0], bufferName);
    EmitBlocksStep(blocks, st, bufferName);
  }

  /** The first abort in the remainder is the first abort of the whole
      sequence when the first block does not abort. */
  lemma PrefixShift(blocks: seq<Block>, j: nat)
    requires blocks != [] && !Aborts(blocks[0]) && j < |blocks[1..]| && NoAbort(blocks[1..][..j])
    ensures blocks[j + 1] == blocks[1..][j] && NoAbort(blocks[..j + 1])
  {
    var p := blocks[..j + 1];
    assert p[1..] == blocks[1..][..j];
    NoAbortCons(p);
  }

  /** Running the loop over a concatenation runs it over each part in turn. */
  lemma {:induction false} EmitBlocksAppend(a: seq<Block>, b: seq<Block>, st: GenState, bufferName: string)
    ensures EmitBlocks(a + b, st, bufferName) ==
      match EmitBlocks(a, st, bufferName)
      case Failure(e) => Failure(e)
      case Success(mid) => EmitBlocks(b, mid, bufferName)
  {
    if a == [] {
      assert a + b == b;
    } else {
      assert (a + b)[0] == a[0];
      assert (a + b)[1..] == a[1..] + b;
      match EmitBlock(st, a[0], bufferName)
      case Failure(_) =>
      case Success(next) => EmitBlocksAppend(a[1..], b, next, bufferName);
    }
  }

  /** The blocks other than Extend blocks. */
  function WithoutExtend(blocks: seq<Block>): (r: seq<Block>)
    ensures |r| <= |blocks|
    ensures forall i :: 0 <= i < |r| ==> r[i].kind != Extend
    ensures forall b :: b in r <==> b in blocks && b.kind != Extend
  {
    if blocks == [] then []
    else if blocks[0].kind == Extend then WithoutExtend(blocks[1..])
    else [blocks[0]] + WithoutExtend(blocks[1..])
  }

  /** A single block is kept exactly when it is not an Extend block. */
  lemma WithoutExtendSingle(x: Block)
    ensures WithoutExtend([x]) == if x.kind == Extend then [] else [x]
  {
    assert [x][1..] == [];
  }

  /** Filtering keeps the order: the filter of a concatenation is the
      concatenation of the filters. */
  lemma {:induction false} WithoutExtendAppend(a: seq<Block>, b: seq<Block>)
    ensures WithoutExtend(a + b) == WithoutExtend(a) + WithoutExtend(b)
  {
    if a == [] {
      assert a + b == b;
    } else {
      var ab := a + b;
      assert ab[0] == a[0];
      assert ab[1..] == a[1..] + b;
      WithoutExtendAppend(a[1..], b);
      if a[0].kind == Extend {
        assert WithoutExtend(ab) == WithoutExtend(a[1..] + b);
      } else {
        assert WithoutExtend(ab) == [a[0]] + WithoutExtend(a[1..] + b);
        assert WithoutExtend(a) == [a[0]] + WithoutExtend(a[1..]);
      }
    }
  }

  /** Extend blocks neither contribute nor disturb the order of the others. */
  lemma {:induction false} ExtendBlocksInert(blocks: seq<Block>, st: GenState, bufferName: string)
    ensures EmitBlocks(WithoutExtend(blocks), st, bufferName) == EmitBlocks(blocks, st, bufferName)
  {
    if blocks != [] {
      var rest := WithoutExtend(blocks[1..]);
      if blocks[0].kind == Extend {
        ExtendBlocksInert(blocks[1..], st, bufferName);
      } else {
        assert ([blocks[0]] + rest)[0] == blocks[0];
        assert ([blocks[0]] + rest)[1..] == rest;
        match EmitBlock(st, blocks[0], bufferName)
        case Failure(_) =>
        case Success(next) => ExtendBlocksInert(blocks[1..], next, bufferName);
      }
    }
  }

  // ---------------------------------------------------------------------
  // Properties of the whole output

  /** Without a render function the output is the header alone, whatever
      the blocks, the preamble and the starting state. */
  lemma HeaderOnlyWithoutFunction(g: Generator, blocks: seq<Block>, rawCode: string, st: GenState)
    requires g.definedFunction.None?
    ensures GenerateCode(g.(rootBlocks := blocks, rawCode := rawCode, state := st)) == GenerateCode(g)
    ensures GenerateCode(g).text == "package " + g.packageName + ImportBlock
  {
  }

  /** The layout of a successful output: header, preamble, declaration,
      the Grow call sized by the final ConstantLength, every block's
      statements in order, and the closing brace. */
  lemma OutputLayout(g: Generator, sig: Signature)
    requires g.definedFunction.Some? && ValidateFunction(g.definedFunction.value) == Success(sig)
    requires NoAbort(g.rootBlocks)
    ensures sig.code == g.definedFunction.value.content
    ensures GenerateCode(g) == Emitted(Assemble(
      Header(g.packageName) + Opening(g.rawCode, sig), Expected(g.rootBlocks, g.state, sig.bufferName)))
  {
    EmitBlocksSucceeds(g.rootBlocks, g.state, sig.bufferName);
  }

  /** The Grow call's argument is the decimal numeral of the starting
      ConstantLength plus five per counted boolean, closed right after. */
  lemma GrowArgument(g: Generator, sig: Signature)
    requires g.definedFunction.Some? && ValidateFunction(g.definedFunction.value) == Success(sig)
    requires NoAbort(g.rootBlocks)
    ensures GenerateCode(g).Emitted?
    ensures Header(g.packageName) + Opening(g.rawCode, sig)
      + NatToDecimal(g.state.constantLength + 5 * CountedBools(g.rootBlocks)) + ")\n" <= GenerateCode(g).text
    ensures DecimalValue(NatToDecimal(g.state.constantLength + 5 * CountedBools(g.rootBlocks)))
      == g.state.constantLength + 5 * CountedBools(g.rootBlocks)
  {
    var total := g.state.constantLength + 5 * CountedBools(g.rootBlocks);
    var opening := Header(g.packageName) + Opening(g.rawCode, sig);
    assert GenerateCode(g).Emitted? && opening + NatToDecimal(total) + ")\n" <= GenerateCode(g).text by {
      OutputLayout(g, sig);
      AssemblePrefix(opening, Expected(g.rootBlocks, g.state, sig.bufferName));
    }
    assert DecimalValue(NatToDecimal(total)) == total by {
      NatToDecimalRoundTrip(total);
    }
  }

  /** Generation panics exactly when the declaration is refused or some block
      aborts; a refusal leaves only the header in the file, and an abort
      leaves the text up to the Grow call, without any statement. */
  lemma PanicCases(g: Generator, sig: Signature)
    requires g.definedFunction.Some? && ValidateFunction(g.definedFunction.value) == Success(sig)
    ensures GenerateCode(g).Panicked? <==> !NoAbort(g.rootBlocks)
    ensures GenerateCode(g).Panicked? ==>
      GenerateCode(g).written == Header(g.packageName) + Opening(g.rawCode, sig)
      && GenerateCode(g).fault.FormatPanic?
  {
    EmitBlocksPanics(g.rootBlocks, g.state, sig.bufferName);
  }

  /** Dropping the Extend blocks changes nothing in the output. */
  lemma OutputIgnoresExtend(g: Generator)
    ensures GenerateCode(g.(rootBlocks := WithoutExtend(g.rootBlocks))) == GenerateCode(g)
  {
    if g.definedFunction.Some? && ValidateFunction(g.definedFunction.value).Success? {
      ExtendBlocksInert(g.rootBlocks, g.state, ValidateFunction(g.definedFunction.value).value.bufferName);
    }
  }

  // ---------------------------------------------------------------------
  // NewGenerator without its I/O

  const Notice := "// DO NOT EDIT!\n// Generated by Goh\n\n"

  /** The package name NewGenerator settles on. */
  function DefaultPackageName(name: string): (r: string)
    ensures r != ""
    ensures name != "" ==> r == name
  {
    if name == "" then "template" else name
  }

  /** The text of the generated file for a parsed template: the notice, then
      what GenerateCode writes. NewGenerator replaces the pending buffer with
      an empty one but keeps the ConstantLength the generator already holds,
      `startLength`. */
  function Compile(packageName: string, rawCode: string, definedFunction: Option<FunctionBlock>, blocks: seq<Block>, startLength: nat): (r: Emission)
    ensures Notice + Header(DefaultPackageName(packageName)) <= r.Written()
    ensures definedFunction.None? ==> r.Emitted?
  {
    var e := GenerateCode(Generator(definedFunction, blocks, rawCode, DefaultPackageName(packageName), GenState(startLength, "")));
    PrefixOfPrepend(Notice, Header(DefaultPackageName(packageName)), e.Written());
    match e
    case Emitted(t) => Emitted(Notice + t)
    case Panicked(w, f) => Panicked(Notice + w, f)
  }

  /** For a template with a valid render function and no aborting block, the
      Grow argument is the ConstantLength the generator started with plus
      five per non-blank boolean routed through either formatter. A generator
      used once starts at zero. */
  lemma CompileGrowArgument(packageName: string, rawCode: string, f: FunctionBlock, blocks: seq<Block>, startLength: nat, sig: Signature)
    requires ValidateFunction(f) == Success(sig)
    requires NoAbort(blocks)
    ensures var r := Compile(packageName, rawCode, Some(f), blocks, startLength);
      && r.Emitted?
      && Notice + (Header(DefaultPackageName(packageName)) + Opening(rawCode, sig)
         + NatToDecimal(startLength + 5 * CountedBools(blocks)) + ")\n") <= r.text
  {
    var g := Generator(Some(f), blocks, rawCode, DefaultPackageName(packageName), GenState(startLength, ""));
    GrowArgument(g, sig);
    CompileEmitted(packageName, rawCode, Some(f), blocks, startLength);
    var pre := Header(g.packageName) + Opening(rawCode, sig) + NatToDecimal(startLength + 5 * CountedBools(blocks)) + ")\n";
    PrefixOfPrepend(Notice, pre, GenerateCode(g).text);
  }

  /** A complete generation compiles to the notice followed by its text. */
  lemma CompileEmitted(packageName: string, rawCode: string, definedFunction: Option<FunctionBlock>, blocks: seq<Block>, startLength: nat)
    requires GenerateCode(Generator(definedFunction, blocks, rawCode, DefaultPackageName(packageName), GenState(startLength, ""))).Emitted?
    ensures Compile(packageName, rawCode, definedFunction, blocks, startLength)
      == Emitted(Notice + GenerateCode(Generator(definedFunction, blocks, rawCode, DefaultPackageName(packageName), GenState(startLength, ""))).text)
  {
  }

  const UnsupportedPrefix := "Unsupported value type: "

  /** The text the Go code panics with: the validator error's own message,
      or the unsupported type's code after a fixed prefix. */
  function PanicMessage(f: Fault): (m: string)
    ensures f.InvalidFunction? ==> m == SourceMessage(f.error)
    ensures f.FormatPanic? ==> UnsupportedPrefix <= m && m[|UnsupportedPrefix|..] == IntToDecimal(f.cause.code)
  {
    match f
    case InvalidFunction(e) => SourceMessage(e)
    case FormatPanic(UnsupportedValueType(code)) => UnsupportedPrefix + IntToDecimal(code)
  }

  /** As written, a wrong buffer type and an empty parameter list panic with
      the same text. */
  lemma PanicMessageMisreportsWrongType()
    ensures PanicMessage(InvalidFunction(InvalidBufferParameter)) == PanicMessage(InvalidFunction(EmptyParameters))
  {
  }

  /** As written, two different panics other than parse failures print the
      same text only when they are the empty-list and the wrong-type
      refusals. */
  lemma PanicMessageCollisions(f1: Fault, f2: Fault)
    requires !(f1.InvalidFunction? && f1.error.ParseFailed?)
    requires !(f2.InvalidFunction? && f2.error.ParseFailed?)
    requires PanicMessage(f1) == PanicMessage(f2) && f1 != f2
    ensures {f1, f2} == {InvalidFunction(EmptyParameters), InvalidFunction(InvalidBufferParameter)}
  {
    if f1.InvalidFunction? && f2.InvalidFunction? {
      SourceCollision(f1.error, f2.error);
    } else if f1.FormatPanic? && f2.FormatPanic? {
      IntToDecimalInjective(f1.cause.code, f2.cause.code);
    } else if f1.InvalidFunction? {
      SourceVersusUnsupported(f1.error, f2.cause.code);
    } else {
      SourceVersusUnsupported(f2.error, f1.cause.code);
    }
  }

  /** Two different returned errors share a Go message only when they are
      the empty-list and the wrong-type refusals. */
  lemma SourceCollision(e1: FunctionError, e2: FunctionError)
    requires !e1.ParseFailed? && !e2.ParseFailed? && e1 != e2
    requires SourceMessage(e1) == SourceMessage(e2)
    ensures {e1, e2} == {EmptyParameters, InvalidBufferParameter}
  {
    var n1 := if e1 == InvalidBufferParameter then EmptyParameters else e1;
    var n2 := if e2 == InvalidBufferParameter then EmptyParameters else e2;
    assert Message(n1) == SourceMessage(e1) && Message(n2) == SourceMessage(e2);
    MessageDistinguishesReturnedErrors(n1, n2);
  }

  /** A Go validator message never reads as an unsupported-type panic. */
  lemma SourceVersusUnsupported(e: FunctionError, code: int)
    requires !e.ParseFailed?
    ensures SourceMessage(e) != PanicMessage(FormatPanic(UnsupportedValueType(code)))
  {
    var n := if e == InvalidBufferParameter then EmptyParameters else e;
    assert Message(n) == SourceMessage(e);
    MessageVersusUnsupported(n, code);
  }

  /** The panic text with the validator errors reported by their corrected
      messages; it differs from the Go code's exactly for a wrong buffer type. */
  function CorrectedPanicMessage(f: Fault): (m: string)
    ensures m == PanicMessage(f) <==> f != InvalidFunction(InvalidBufferParameter)
  {
    match f
    case InvalidFunction(e) => Message(e)
    case FormatPanic(_) => PanicMessage(f)
  }

  /** With the corrected messages, distinct panics other than parse failures
      print distinct texts. */
  lemma CorrectedPanicMessagesDistinct(f1: Fault, f2: Fault)
    requires !(f1.InvalidFunction? && f1.error.ParseFailed?)
    requires !(f2.InvalidFunction? && f2.error.ParseFailed?)
    requires CorrectedPanicMessage(f1) == CorrectedPanicMessage(f2)
    ensures f1 == f2
  {
    if f1.InvalidFunction? && f2.InvalidFunction? {
      MessageDistinguishesReturnedErrors(f1.error, f2.error);
    } else if f1.FormatPanic? && f2.FormatPanic? {
      IntToDecimalInjective(f1.cause.code, f2.cause.code);
    } else if f1.InvalidFunction? {
      MessageVersusUnsupported(f1.error, f2.cause.code);
    } else {
      MessageVersusUnsupported(f2.error, f1.cause.code);
    }
  }

  /** A validator message never reads as an unsupported-type panic: the panic
      ends in digits, and each message has a letter or a space just before
      its last character. */
  lemma MessageVersusUnsupported(e: FunctionError, code: int)
    requires !e.ParseFailed?
    ensures Message(e) != PanicMessage(FormatPanic(UnsupportedValueType(code)))
  {
    var m := Message(e);
    var p := PanicMessage(FormatPanic(UnsupportedValueType(code)));
    MessageTail(e);
    if m == p {
      UnsupportedTailDigits(code, |m| - 2);
    }
  }

  /** Each corrected validator message is long and has no digit just before its last character. */
  lemma MessageTail(e: FunctionError)
    requires !e.ParseFailed?
    ensures |Message(e)| >= 27 && !IsDigit(Message(e)[|Message(e)| - 2])
  {
  }

  /** Past the prefix and the possible sign, an unsupported-type panic is digits. */
  lemma UnsupportedTailDigits(code: int, k: nat)
    requires |UnsupportedPrefix| < k < |PanicMessage(FormatPanic(UnsupportedValueType(code)))|
    ensures IsDigit(PanicMessage(FormatPanic(UnsupportedValueType(code)))[k])
  {
    var d := IntToDecimal(code);
    assert PanicMessage(FormatPanic(UnsupportedValueType(code))) == UnsupportedPrefix + d;
    IntToDecimalDigits(code, k - |UnsupportedPrefix|);
  }

  /** A render function `func Render(w *bytes.Buffer)` over a code line, an
      int value and an escaped literal: the body holds the code line, the
      int formatting call and the escaped write, in that order, and the Grow
      argument is 0. */
  lemma EndToEndExample(decl: string, f: FunctionBlock, blocks: seq<Block>)
    requires decl == "func Render(w *bytes.Buffer) "
    requires f == FunctionBlock(decl, Parsed([FuncDecl([Field(["w"], Star(Selector(Ident("bytes"), "Buffer")))])]))
    requires blocks == [Block(Code, "x := 1", String), Block(Value, " x ", Int), Block(HTML, "<b>", String)]
    ensures Compile("", "", Some(f), blocks, 0) == Emitted(Notice + (
      "package template" + ImportBlock + (decl + "{\nw.Grow(") + "0" + ")\n"
      + ("x := 1\n" + ("Goh.FormatInt(int64(x), w)\n" + "Goh.EscapeHTML(<b>, w)\n")) + "}\n"))
  {
    var g := Generator(Some(f), blocks, "", "template", Fresh);
    var t := ExampleGenerate(decl, f, blocks, g);
    assert DefaultPackageName("") == "template";
    assert Compile("", "", Some(f), blocks, 0) == Emitted(Notice + t);
  }

  lemma ExampleGenerate(decl: string, f: FunctionBlock, blocks: seq<Block>, g: Generator) returns (t: string)
    requires decl == "func Render(w *bytes.Buffer) "
    requires f == FunctionBlock(decl, Parsed([FuncDecl([Field(["w"], Star(Selector(Ident("bytes"), "Buffer")))])]))
    requires blocks == [Block(Code, "x := 1", String), Block(Value, " x ", Int), Block(HTML, "<b>", String)]
    requires g == Generator(Some(f), blocks, "", "template", Fresh)
    ensures GenerateCode(g) == Emitted(t)
    ensures t == "package template" + ImportBlock + (decl + "{\nw.Grow(") + "0" + ")\n"
      + ("x := 1\n" + ("Goh.FormatInt(int64(x), w)\n" + "Goh.EscapeHTML(<b>, w)\n")) + "}\n"
  {
    var sig := ExampleSignature(decl, f);
    var acc := ExampleAccumulated(blocks);
    OutputLayout(g, sig);
    ExampleOpening(decl, sig);
    ExampleZero();
    t := Assemble(Header("template") + Opening("", sig), GenState(0, acc));
  }

  /** The example's declaration is accepted, with `w` as the buffer. */
  lemma ExampleSignature(decl: string, f: FunctionBlock) returns (sig: Signature)
    requires f == FunctionBlock(decl, Parsed([FuncDecl([Field(["w"], Star(Selector(Ident("bytes"), "Buffer")))])]))
    ensures sig == Signature(decl, "w") && ValidateFunction(f) == Success(sig)
  {
    sig := Signature(decl, "w");
  }

  lemma ExampleZero()
    ensures NatToDecimal(0) == "0"
  {
  }

  /** The opening of the example: header, declaration and the Grow call on `w`. */
  lemma ExampleOpening(decl: string, sig: Signature)
    requires decl == "func Render(w *bytes.Buffer) " && sig == Signature(decl, "w")
    ensures Header("template") + Opening("", sig) == "package template" + ImportBlock + (decl + "{\nw.Grow(")
  {
    assert "package " + "template" == "package template";
    assert "{\n" + "w" + ".Grow(" == "{\nw.Grow(";
    AppendAssoc(decl, "{\n" + "w", ".Grow(");
    AppendAssoc(decl, "{\n", "w");
  }

  /** The pending statements of the example's blocks. */
  lemma ExampleAccumulated(blocks: seq<Block>) returns (acc: string)
    requires blocks == [Block(Code, "x := 1", String), Block(Value, " x ", Int), Block(HTML, "<b>", String)]
    ensures NoAbort(blocks) && Expected(blocks, Fresh, "w") == GenState(0, acc)
    ensures acc == "x := 1\n" + ("Goh.FormatInt(int64(x), w)\n" + "Goh.EscapeHTML(<b>, w)\n")
  {
    var b0, b1, b2 := blocks[0], blocks[1], blocks[2];
    ExampleCode(b0);
    ExampleValue(b1);
    ExampleHTML(b2);
    var r1 := blocks[1..];
    var r2 := r1[1..];
    assert r1[0] == b1 && r2[0] == b2 && r2[1..] == [];
    forall i | 0 <= i < |blocks| ensures !Aborts(blocks[i]) {
      if i == 0 { assert blocks[i] == b0; } else if i == 1 { assert blocks[i] == b1; } else { assert blocks[i] == b2; }
    }
    assert CountedBools(r2) == 0;
    assert CountedBools(r1) == 0;
    acc := "x := 1\n" + ("Goh.FormatInt(int64(x), w)\n" + "Goh.EscapeHTML(<b>, w)\n");
    assert Accumulated(r2, "w") == "Goh.EscapeHTML(<b>, w)\n" + "";
    assert "Goh.EscapeHTML(<b>, w)\n" + "" == "Goh.EscapeHTML(<b>, w)\n";
    assert Accumulated(blocks, "w") == acc;
    assert "" + acc == acc;
  }

  lemma ExampleCode(b: Block)
    requires b == Block(Code, "x := 1", String)
    ensures !Aborts(b) && !CountedBool(b)
    ensures Contribution(b, "w") == "x := 1\n"
  {
  }

  /** A padded int value: trimmed, then formatted through a widening cast. */
  lemma ExampleValue(b: Block)
    requires b == Block(Value, " x ", Int)
    ensures !Aborts(b) && !CountedBool(b)
    ensures Contribution(b, "w") == "Goh.FormatInt(int64(x), w)\n"
  {
    ExampleTrimPadded(b.content);
  }

  lemma ExampleTrimPadded(s: string)
    requires s == " x "
    ensures TrimSpace(s) == "x"
  {
    assert s == " " + "x" + " ";
    TrimSpaceUnique(" ", "x", " ");
  }

  /** A literal piece of template text: escaped on output. */
  lemma ExampleHTML(b: Block)
    requires b == Block(HTML, "<b>", String)
    ensures !Aborts(b) && !CountedBool(b)
    ensures Contribution(b, "w") == "Goh.EscapeHTML(<b>, w)\n"
  {
    ExampleTrimLiteral(b.content);
  }

  lemma ExampleTrimLiteral(s: string)
    requires s == "<b>"
    ensures TrimSpace(s) == s
  {
    assert s == [] + s + [];
    TrimSpaceUnique([], s, []);
  }
}

=== FILE: formatter.dfy ===
/** The per-value-type formatters generateValue (no escaping) and
    generateEscapedHTML (escaping). Each trims the block's expression, emits
    at most one statement into the pending buffer, and adds 5 to
    ConstantLength for a boolean, the length of "false". */
module Formatter {
  import opened Results
  import opened Text
  import opened Blocks
  import opened Statements

  /** The panic of the escaping path for a type it has no handler for. */
  datatype FormatError = UnsupportedValueType(code: int)

  /** The static length a handler adds to ConstantLength. */
  function Bonus(vt: ValueType): nat {
    if vt == Bool then 5 else 0
  }

  /** Appends a generated statement, counting its static length. */
  function Emit(st: GenState, vt: ValueType, stmt: string): GenState {
    GenState(st.constantLength + Bonus(vt), st.buffer + stmt)
  }

  /** generateValue. An empty expression or a type without a handler emits
      nothing and fails nothing. */
  function GenerateValue(st: GenState, b: Block, bufferName: string): (r: GenState)
    ensures st.buffer <= r.buffer
    ensures r.constantLength == st.constantLength + (if b.valueType == Bool && !AllSpace(b.content) then 5 else 0)
    ensures AllSpace(b.content) || b.valueType.Unsupported? ==> r == st
  {
    var c := TrimSpace(b.content);
    if c == [] then st
    else match ValueStatement(b.valueType, c, bufferName)
      case None => st
      case Some(stmt) => Emit(st, b.valueType, stmt)
  }

  /** For a non-blank content of a known type, generateValue appends exactly
      the table's statement for the trimmed expression. */
  lemma GenerateValueAppends(st: GenState, b: Block, bufferName: string)
    requires !AllSpace(b.content) && !b.valueType.Unsupported?
    ensures ValueStatement(b.valueType, TrimSpace(b.content), bufferName).Some?
    ensures GenerateValue(st, b, bufferName).buffer
         == st.buffer + ValueStatement(b.valueType, TrimSpace(b.content), bufferName).value
  {
  }

  /** What generateValue appends reads back as the block's value type and
      trimmed expression, when the buffer name is a plain identifier. */
  lemma GenerateValueDecodes(st: GenState, b: Block, bufferName: string)
    requires !AllSpace(b.content) && !b.valueType.Unsupported? && '.' !in bufferName
    ensures var r := GenerateValue(st, b, bufferName);
      ParseValueStatement(r.buffer[|st.buffer|..], bufferName) == Some((b.valueType, TrimSpace(b.content)))
  {
    var c := TrimSpace(b.content);
    var stmt := ValueStatement(b.valueType, c, bufferName).value;
    assert (st.buffer + stmt)[|st.buffer|..] == stmt;
    ValueStatementRoundTrip(b.valueType, c, bufferName);
  }

  /** generateEscapedHTML. An empty expression emits nothing; a non-empty one
      whose type has no handler panics. */
  function GenerateEscapedHTML(st: GenState, b: Block, bufferName: string): (r: Result<GenState, FormatError>)
    ensures r.Failure? <==> !AllSpace(b.content) && b.valueType.Unsupported?
    ensures r.Failure? ==> r.error == UnsupportedValueType(b.valueType.code)
    ensures r.Success? ==> st.buffer <= r.value.buffer
    ensures r.Success? ==>
      r.value.constantLength == st.constantLength + (if b.valueType == Bool && !AllSpace(b.content) then 5 else 0)
    ensures AllSpace(b.content) ==> r == Success(st)
  {
    var c := TrimSpace(b.content);
    if c == [] then Success(st)
    else match EscapedStatement(b.valueType, c, bufferName)
      case None => Failure(UnsupportedValueType(b.valueType.code))
      case Some(stmt) => Success(Emit(st, b.valueType, stmt))
  }

  /** For a non-blank content of a known type, generateEscapedHTML succeeds
      and appends exactly the escaping table's statement for the trimmed
      expression, whatever that expression is. */
  lemma GenerateEscapedHTMLAppends(st: GenState, b: Block, bufferName: string)
    requires !AllSpace(b.content) && !b.valueType.Unsupported?
    ensures EscapedStatement(b.valueType, TrimSpace(b.content), bufferName).Some?
    ensures GenerateEscapedHTML(st, b, bufferName).Success?
    ensures GenerateEscapedHTML(st, b, bufferName).value.buffer
         == st.buffer + EscapedStatement(b.valueType, TrimSpace(b.content), bufferName).value
  {
  }

  /** What generateEscapedHTML appends reads back as the block's value type
      and trimmed expression, unless a String expression starts with
      `Goh.Bytes2String(` and ends with `)`. */
  lemma GenerateEscapedHTMLDecodes(st: GenState, b: Block, bufferName: string)
    requires !AllSpace(b.content) && !b.valueType.Unsupported?
    requires b.valueType == String ==> Between(TrimSpace(b.content), BytesViewPrefix, ")").None?
    ensures var r := GenerateEscapedHTML(st, b, bufferName);
      r.Success? && ParseEscapedStatement(r.value.buffer[|st.buffer|..], bufferName) == Some((b.valueType, TrimSpace(b.content)))
  {
    var c := TrimSpace(b.content);
    var stmt := EscapedStatement(b.valueType, c, bufferName).value;
    assert (st.buffer + stmt)[|st.buffer|..] == stmt;
    EscapedStatementRoundTrip(b.valueType, c, bufferName);
  }

  /** For the Int, Uint, Bool and Any rows, and for blank expressions, the two
      formatters have the same effect; for a non-blank String or Bytes they do not. */
  lemma FormattersAgree(st: GenState, b: Block, bufferName: string)
    ensures GenerateEscapedHTML(st, b, bufferName) == Success(GenerateValue(st, b, bufferName))
      <==> AllSpace(b.content) || b.valueType in {Int, Uint, Bool, Any}
  {
    var c := TrimSpace(b.content);
    SharedStatements(b.valueType, c, bufferName);
    if !AllSpace(b.content) && b.valueType in {String, Bytes} {
      var v := ValueStatement(b.valueType, c, bufferName).value;
      var e := EscapedStatement(b.valueType, c, bufferName).value;
      assert GenerateValue(st, b, bufferName).buffer == st.buffer + v;
      assert GenerateEscapedHTML(st, b, bufferName).value.buffer == st.buffer + e;
      assert (st.buffer + v)[|st.buffer|..] == v;
      assert (st.buffer + e)[|st.buffer|..] == e;
    }
  }

  /** An unsupported type with a non-blank expression: the escaping path
      panics while the non-escaping path leaves the state alone. */
  lemma UnsupportedTypeAsymmetry(st: GenState, b: Block, bufferName: string)
    requires b.valueType.Unsupported? && !AllSpace(b.content)
    ensures GenerateEscapedHTML(st, b, bufferName) == Failure(UnsupportedValueType(b.valueType.code))
    ensures GenerateValue(st, b, bufferName) == st
  {
  }

  /** Surrounding white space in a block makes no difference to either formatter. */
  lemma FormattersIgnorePadding(st: GenState, b: Block, bufferName: string)
    ensures var t := b.(content := TrimSpace(b.content));
      && GenerateValue(st, t, bufferName) == GenerateValue(st, b, bufferName)
      && GenerateEscapedHTML(st, t, bufferName) == GenerateEscapedHTML(st, b, bufferName)
  {
    TrimSpaceIdempotent(b.content);
  }
}

=== FILE: results.dfy ===
/** Failure-carrying wrappers used across the generator model. */
module Results {

  /** An optional value: the Go code's "nil or a value". */
  datatype Option<+T> = None | Some(value: T) {

    /** The value, or `default` when there is none. */
    function GetOr(default: T): T {
      if Some? then value else default
    }
  }

  /** Either a computed value or the reason the computation stopped. */
  datatype Result<+T, +E> = Success(value: T) | Failure(error: E) {

    predicate IsFailure() {
      Failure?
    }

    function PropagateFailure<U>(): Result<U, E>
      requires Failure?
    {
      Failure(error)
    }

    function Extract(): T
      requires Success?
    {
      value
    }
  }
}

=== FILE: statements.dfy ===
/** The Go statements the two value formatters emit, one table per
    formatter, and decoders that read a statement back into the value type
    and expression it was generated from. */
module Statements {
  import opened Results
  import opened Text
  import opened Blocks

  const FormatIntPrefix := "Goh.FormatInt(int64("
  const FormatUintPrefix := "Goh.FormatUint(uint64("
  const FormatBoolPrefix := "Goh.FormatBool("
  const FormatAnyPrefix := "Goh.FormatAny("
  const EscapePrefix := "Goh.EscapeHTML("
  const BytesViewPrefix := "Goh.Bytes2String("

  /** `buf.WriteString(` and `buf.Write(`: the direct writes of the non-escaping path. */
  function WriteStringPrefix(buf: string): string { buf + ".WriteString(" }
  function WritePrefix(buf: string): string { buf + ".Write(" }

  /** What follows the expression when the buffer is passed as a trailing
      argument, with and without a conversion call to close first. */
  function ArgSuffix(buf: string): string { ", " + buf + ")\n" }
  function ConvArgSuffix(buf: string): string { "), " + buf + ")\n" }
  const CallEnd := ")\n"

  /** The shared rows of both tables (Int, Uint, Bool, Any). */
  function FormatCall(vt: ValueType, c: string, buf: string): (r: Option<string>)
    ensures r.Some? <==> vt in {Int, Uint, Bool, Any}
  {
    match vt
    case Int => Some(FormatIntPrefix + c + ConvArgSuffix(buf))
    case Uint => Some(FormatUintPrefix + c + ConvArgSuffix(buf))
    case Bool => Some(FormatBoolPrefix + c + ArgSuffix(buf))
    case Any => Some(FormatAnyPrefix + c + ArgSuffix(buf))
    case _ => None
  }

  /** The statement generateValue emits for trimmed expression `c`, if its
      type has a handler. */
  function ValueStatement(vt: ValueType, c: string, buf: string): (r: Option<string>)
    ensures r.Some? <==> !vt.Unsupported?
  {
    match vt
    case String => Some(WriteStringPrefix(buf) + c + CallEnd)
    case Bytes => Some(WritePrefix(buf) + c + CallEnd)
    case _ => FormatCall(vt, c, buf)
  }

  /** The statement generateEscapedHTML emits for trimmed expression `c`, if
      its type has a handler. */
  function EscapedStatement(vt: ValueType, c: string, buf: string): (r: Option<string>)
    ensures r.Some? <==> !vt.Unsupported?
    ensures vt in {String, Bytes} ==> EscapePrefix <= r.value
  {
    match vt
    case String => Some(EscapePrefix + c + ArgSuffix(buf))
    case Bytes => Some(EscapePrefix + BytesViewPrefix + c + ConvArgSuffix(buf))
    case _ => FormatCall(vt, c, buf)
  }

  // ---------------------------------------------------------------------
  // Reading statements back

  /** Recognises the shared Int, Uint, Bool and Any rows. */
  function ParseFormatCall(s: string, buf: string): (r: Option<(ValueType, string)>)
    ensures r.Some? ==> FormatCall(r.value.0, r.value.1, buf) == Some(s)
  {
    var i := Between(s, FormatIntPrefix, ConvArgSuffix(buf));
    var u := Between(s, FormatUintPrefix, ConvArgSuffix(buf));
    var b := Between(s, FormatBoolPrefix, ArgSuffix(buf));
    var a := Between(s, FormatAnyPrefix, ArgSuffix(buf));
    if i.Some? then Some((Int, i.value))
    else if u.Some? then Some((Uint, u.value))
    else if b.Some? then Some((Bool, b.value))
    else if a.Some? then Some((Any, a.value))
    else None
  }

  /** Inverse of ValueStatement: the value type and expression a
      non-escaping statement was generated from. */
  function ParseValueStatement(s: string, buf: string): (r: Option<(ValueType, string)>)
    ensures r.Some? ==> ValueStatement(r.value.0, r.value.1, buf) == Some(s)
  {
    var f := ParseFormatCall(s, buf);
    var ws := Between(s, WriteStringPrefix(buf), CallEnd);
    var w := Between(s, WritePrefix(buf), CallEnd);
    if f.Some? then f
    else if ws.Some? then Some((String, ws.value))
    else if w.Some? then Some((Bytes, w.value))
    else None
  }

  /** Inverse of EscapedStatement, reading an expression that starts with
      `Goh.Bytes2String(` and ends with `)` as a Bytes value. */
  function ParseEscapedStatement(s: string, buf: string): (r: Option<(ValueType, string)>)
    ensures r.Some? ==> EscapedStatement(r.value.0, r.value.1, buf) == Some(s)
  {
    var f := ParseFormatCall(s, buf);
    var eb := Between(s, EscapePrefix + BytesViewPrefix, ConvArgSuffix(buf));
    var es := Between(s, EscapePrefix, ArgSuffix(buf));
    if f.Some? then f
    else if eb.Some? then Some((Bytes, eb.value))
    else if es.Some? then Some((String, es.value))
    else None
  }

  lemma DivergeAt(p: string, q: string, i: nat)
    requires i < |p| && i < |q| && p[i] != q[i]
    ensures Diverge(p, q)
  {
  }

  /** A receiver name without a dot never starts like a `Goh.F...` call. */
  lemma ReceiverDiverges(p: string, buf: string, x: string)
    requires "Goh.F" <= p
    requires "W" <= x
    requires '.' !in buf
    ensures Diverge(p, buf + "." + x)
  {
    var q := buf + "." + x;
    if i :| 0 <= i < |buf| && i < 3 && buf[i] != "Goh"[i] {
      assert p[i] == "Goh.F"[i];
      DivergeAt(p, q, i);
    } else if |buf| < 3 {
      assert q[|buf|] == '.';
      assert p[|buf|] == "Goh.F"[|buf|];
      DivergeAt(p, q, |buf|);
    } else if |buf| == 3 {
      assert q[4] == x[0] == 'W';
      assert p[4] == 'F';
      DivergeAt(p, q, 4);
    } else {
      assert q[3] == buf[3];
      assert buf[3] != '.';
      assert p[3] == '.';
      DivergeAt(p, q, 3);
    }
  }

  /** A statement whose head diverges from every shared row is not read as one. */
  lemma ParseFormatCallRejects(q: string, m: string, t: string, buf: string)
    requires Diverge(FormatIntPrefix, q) && Diverge(FormatUintPrefix, q)
    requires Diverge(FormatBoolPrefix, q) && Diverge(FormatAnyPrefix, q)
    ensures ParseFormatCall(q + m + t, buf).None?
  {
    BetweenDiverge(FormatIntPrefix, q, m, t, ConvArgSuffix(buf));
    BetweenDiverge(FormatUintPrefix, q, m, t, ConvArgSuffix(buf));
    BetweenDiverge(FormatBoolPrefix, q, m, t, ArgSuffix(buf));
    BetweenDiverge(FormatAnyPrefix, q, m, t, ArgSuffix(buf));
  }

  /** The shared rows read back to the type and expression they came from. */
  lemma FormatCallRoundTrip(vt: ValueType, c: string, buf: string)
    requires vt in {Int, Uint, Bool, Any}
    ensures ParseFormatCall(FormatCall(vt, c, buf).value, buf) == Some((vt, c))
  {
    DivergeAt(FormatIntPrefix, FormatUintPrefix, 10);
    DivergeAt(FormatIntPrefix, FormatBoolPrefix, 10);
    DivergeAt(FormatIntPrefix, FormatAnyPrefix, 10);
    DivergeAt(FormatUintPrefix, FormatBoolPrefix, 10);
    DivergeAt(FormatUintPrefix, FormatAnyPrefix, 10);
    DivergeAt(FormatBoolPrefix, FormatAnyPrefix, 10);
    match vt
    case Int =>
      BetweenOf(FormatIntPrefix, c, ConvArgSuffix(buf));
    case Uint =>
      BetweenDiverge(FormatIntPrefix, FormatUintPrefix, c, ConvArgSuffix(buf), ConvArgSuffix(buf));
      BetweenOf(FormatUintPrefix, c, ConvArgSuffix(buf));
    case Bool =>
      BetweenDiverge(FormatIntPrefix, FormatBoolPrefix, c, ArgSuffix(buf), ConvArgSuffix(buf));
      BetweenDiverge(FormatUintPrefix, FormatBoolPrefix, c, ArgSuffix(buf), ConvArgSuffix(buf));
      BetweenOf(FormatBoolPrefix, c, ArgSuffix(buf));
    case Any =>
      BetweenDiverge(FormatIntPrefix, FormatAnyPrefix, c, ArgSuffix(buf), ConvArgSuffix(buf));
      BetweenDiverge(FormatUintPrefix, FormatAnyPrefix, c, ArgSuffix(buf), ConvArgSuffix(buf));
      BetweenDiverge(FormatBoolPrefix, FormatAnyPrefix, c, ArgSuffix(buf), ArgSuffix(buf));
      BetweenOf(FormatAnyPrefix, c, ArgSuffix(buf));
  }

  /** A non-escaping statement determines its value type and expression,
      provided the buffer name is a plain identifier (has no dot). */
  lemma ValueStatementRoundTrip(vt: ValueType, c: string, buf: string)
    requires !vt.Unsupported?
    requires '.' !in buf
    ensures ParseValueStatement(ValueStatement(vt, c, buf).value, buf) == Some((vt, c))
  {
    if vt == String {
      WriteStringRoundTrip(c, buf);
    } else if vt == Bytes {
      WriteRoundTrip(c, buf);
    } else {
      FormatCallRoundTrip(vt, c, buf);
    }
  }

  lemma WriteStringRoundTrip(c: string, buf: string)
    requires '.' !in buf
    ensures ParseValueStatement(WriteStringPrefix(buf) + c + CallEnd, buf) == Some((String, c))
  {
    DirectWriteNotFormatCall(WriteStringPrefix(buf), buf, "WriteString(", c);
    BetweenOf(WriteStringPrefix(buf), c, CallEnd);
  }

  lemma WriteRoundTrip(c: string, buf: string)
    requires '.' !in buf
    ensures ParseValueStatement(WritePrefix(buf) + c + CallEnd, buf) == Some((Bytes, c))
  {
    DirectWriteNotFormatCall(WritePrefix(buf), buf, "Write(", c);
    DivergeAt(WriteStringPrefix(buf), WritePrefix(buf), |buf| + 6);
    BetweenDiverge(WriteStringPrefix(buf), WritePrefix(buf), c, CallEnd, CallEnd);
    BetweenOf(WritePrefix(buf), c, CallEnd);
  }

  /** A direct write on a dot-free receiver is never read as a shared row. */
  lemma DirectWriteNotFormatCall(q: string, buf: string, x: string, c: string)
    requires '.' !in buf
    requires "W" <= x
    requires q == buf + "." + x
    ensures ParseFormatCall(q + c + CallEnd, buf).None?
  {
    ReceiverDiverges(FormatIntPrefix, buf, x);
    ReceiverDiverges(FormatUintPrefix, buf, x);
    ReceiverDiverges(FormatBoolPrefix, buf, x);
    ReceiverDiverges(FormatAnyPrefix, buf, x);
    ParseFormatCallRejects(q, c, CallEnd, buf);
  }

  /** An escaped String statement can only be read as a Bytes one when its
      expression starts with `Goh.Bytes2String(` and ends with `)`. */
  lemma EscapedBytesPattern(c: string, buf: string)
    ensures Between(EscapePrefix + c + ArgSuffix(buf), EscapePrefix + BytesViewPrefix, ConvArgSuffix(buf)).Some?
      ==> Between(c, BytesViewPrefix, ")").Some?
  {
    var s := EscapePrefix + c + ArgSuffix(buf);
    var eb := Between(s, EscapePrefix + BytesViewPrefix, ConvArgSuffix(buf));
    if eb.Some? {
      var m := eb.value;
      var v := BytesViewPrefix + m + ")";
      assert ConvArgSuffix(buf) == ")" + ArgSuffix(buf);
      assert s == EscapePrefix + v + ArgSuffix(buf);
      assert c == s[|EscapePrefix|..|s| - |ArgSuffix(buf)|];
      assert v == s[|EscapePrefix|..|s| - |ArgSuffix(buf)|];
      BetweenOf(BytesViewPrefix, m, ")");
    }
  }

  /** An escaping statement determines its value type and expression, except
      that a String expression starting with `Goh.Bytes2String(` and ending
      with `)` reads back as a Bytes value (see EscapedBytesCollide). */
  lemma EscapedStatementRoundTrip(vt: ValueType, c: string, buf: string)
    requires !vt.Unsupported?
    requires vt == String ==> Between(c, BytesViewPrefix, ")").None?
    ensures ParseEscapedStatement(EscapedStatement(vt, c, buf).value, buf) == Some((vt, c))
  {
    if vt in {String, Bytes} {
      var q := if vt == String then EscapePrefix else EscapePrefix + BytesViewPrefix;
      DivergeAt(FormatIntPrefix, q, 4);
      DivergeAt(FormatUintPrefix, q, 4);
      DivergeAt(FormatBoolPrefix, q, 4);
      DivergeAt(FormatAnyPrefix, q, 4);
      if vt == String {
        ParseFormatCallRejects(q, c, ArgSuffix(buf), buf);
        EscapedBytesPattern(c, buf);
        BetweenOf(EscapePrefix, c, ArgSuffix(buf));
      } else {
        ParseFormatCallRejects(q, c, ConvArgSuffix(buf), buf);
        BetweenOf(EscapePrefix + BytesViewPrefix, c, ConvArgSuffix(buf));
      }
    } else {
      FormatCallRoundTrip(vt, c, buf);
    }
  }

  /** Escaping a String that starts with `Goh.Bytes2String(` and ends with
      `)` emits the very statement the Bytes row emits for what lies between. */
  lemma EscapedBytesCollide(x: string, buf: string)
    ensures EscapedStatement(String, BytesViewPrefix + x + ")", buf) == EscapedStatement(Bytes, x, buf)
  {
    var v := BytesViewPrefix + x + ")";
    assert ConvArgSuffix(buf) == ")" + ArgSuffix(buf);
    assert EscapePrefix + v + ArgSuffix(buf) == EscapePrefix + BytesViewPrefix + x + ConvArgSuffix(buf);
  }

  /** The two tables agree exactly on the rows outside String and Bytes. */
  lemma SharedStatements(vt: ValueType, c: string, buf: string)
    ensures ValueStatement(vt, c, buf) == EscapedStatement(vt, c, buf) <==> vt !in {String, Bytes}
  {
    if vt == String {
      assert |ValueStatement(vt, c, buf).value| != |EscapedStatement(vt, c, buf).value|;
    } else if vt == Bytes {
      assert |ValueStatement(vt, c, buf).value| != |EscapedStatement(vt, c, buf).value|;
    }
  }
}

=== FILE: text.dfy ===
/** Text primitives the generator relies on: Go's strings.TrimSpace,
    strconv.Itoa and the "%d" verb, and prefix/suffix matching used to
    read generated statements back. Strings are sequences of Unicode
    scalar values. */
module Text {
  import opened Results

  /** Go's unicode.IsSpace: the Latin-1 spaces plus the other characters
      carrying the Unicode White_Space property. */
  predicate IsSpace(c: char) {
    || c == '\t' || c == '\n' || c == '\U{000B}' || c == '\U{000C}' || c == '\r' || c == ' '
    || c == '\U{0085}' || c == '\U{00A0}' || c == '\U{1680}'
    || ('\U{2000}' <= c <= '\U{200A}')
    || c == '\U{2028}' || c == '\U{2029}' || c == '\U{202F}' || c == '\U{205F}' || c == '\U{3000}'
  }

  predicate AllSpace(s: string) {
    forall k :: 0 <= k < |s| ==> IsSpace(s[k])
  }

  /** Number of white-space characters at the front of `s`. */
  function LeadingSpace(s: string): (n: nat)
    ensures n <= |s|
    ensures AllSpace(s[..n])
    ensures n < |s| ==> !IsSpace(s[n])
  {
    if s == [] || !IsSpace(s[0]) then 0 else 1 + LeadingSpace(s[1..])
  }

  /** Number of white-space characters at the back of `s`. */
  function TrailingSpace(s: string): (n: nat)
    ensures n <= |s|
    ensures AllSpace(s[|s| - n..])
    ensures n < |s| ==> !IsSpace(s[|s| - n - 1])
  {
    if s == [] || !IsSpace(s[|s| - 1]) then 0 else 1 + TrailingSpace(s[..|s| - 1])
  }

  /** strings.TrimSpace: drops the white space at both ends of `s`. */
  function TrimSpace(s: string): (r: string)
    ensures |r| <= |s|
    ensures r == [] <==> AllSpace(s)
    ensures r != [] ==> !IsSpace(r[0]) && !IsSpace(r[|r| - 1])
  {
    var lead := LeadingSpace(s);
    var rest := s[lead..];
    assert AllSpace(s) ==> lead == |s|;
    assert lead == |s| ==> AllSpace(s) by {
      if lead == |s| { assert s[..lead] == s; }
    }
    rest[..|rest| - TrailingSpace(rest)]
  }

  /** What TrimSpace removed is white space on either side of the result. */
  lemma TrimSpaceDecompose(s: string) returns (a: string, c: string)
    ensures AllSpace(a) && AllSpace(c)
    ensures s == a + TrimSpace(s) + c
  {
    var lead := LeadingSpace(s);
    var e := TrimSpaceBounds(s);
    a, c := s[..lead], s[e..];
    SplitAt(s, lead, e);
  }

  lemma SplitAt(s: string, i: nat, j: nat)
    requires i <= j <= |s|
    ensures s == s[..i] + s[i..j] + s[j..]
  {
    assert s[..i] + s[i..j] == s[..j];
  }

  /** TrimSpace keeps the slice between the leading white space and the
      trailing white space. */
  lemma TrimSpaceBounds(s: string) returns (e: nat)
    ensures LeadingSpace(s) <= e <= |s|
    ensures TrimSpace(s) == s[LeadingSpace(s)..e]
    ensures AllSpace(s[e..])
  {
    var lead := LeadingSpace(s);
    var rest := s[lead..];
    var trail := TrailingSpace(rest);
    e := |s| - trail;
    assert rest[..|rest| - trail] == s[lead..e];
    assert rest[|rest| - trail..] == s[e..];
  }

  /** TrimSpace is characterised by the decomposition it finds: whenever `s`
      is white space, then a core that is empty or has non-space ends, then
      white space, trimming returns exactly that core. */
  lemma {:induction false} TrimSpaceUnique(a: string, m: string, c: string)
    requires AllSpace(a) && AllSpace(c)
    requires m == [] || (!IsSpace(m[0]) && !IsSpace(m[|m| - 1]))
    ensures TrimSpace(a + m + c) == m
  {
    var s := a + m + c;
    if m == [] {
      assert AllSpace(s) by {
        forall k | 0 <= k < |s| ensures IsSpace(s[k]) {
          if k < |a| { assert s[k] == a[k]; } else { assert s[k] == c[k - |a|]; }
        }
      }
    } else {
      assert s == a + (m + c);
      LeadingSpaceOf(a, m + c);
      assert s[|a|..] == m + c;
      TrailingSpaceOf(m, c);
      assert (m + c)[..|m + c| - |c|] == m;
    }
  }

  lemma {:induction false} LeadingSpaceOf(a: string, t: string)
    requires AllSpace(a)
    requires t == [] || !IsSpace(t[0])
    ensures LeadingSpace(a + t) == |a|
  {
    if a != [] {
      assert (a + t)[1..] == a[1..] + t;
      LeadingSpaceOf(a[1..], t);
    } else {
      assert a + t == t;
    }
  }

  lemma {:induction false} TrailingSpaceOf(m: string, c: string)
    requires AllSpace(c)
    requires m != [] && !IsSpace(m[|m| - 1])
    ensures TrailingSpace(m + c) == |c|
  {
    if c != [] {
      assert (m + c)[..|m + c| - 1] == m + c[..|c| - 1];
      TrailingSpaceOf(m, c[..|c| - 1]);
    } else {
      assert m + c == m;
    }
  }

  /** Trimming twice is trimming once. */
  lemma TrimSpaceIdempotent(s: string)
    ensures TrimSpace(TrimSpace(s)) == TrimSpace(s)
  {
    var r := TrimSpace(s);
    assert r == [] + r + [];
    TrimSpaceUnique([], r, []);
  }

  lemma AppendAssoc(a: string, b: string, c: string)
    ensures a + b + c == a + (b + c)
  {
  }

  lemma PrefixOfAppend(a: string, b: string)
    ensures a <= a + b
  {
    assert (a + b)[..|a|] == a;
  }

  lemma PrefixOfPrepend(p: string, a: string, b: string)
    requires a <= b
    ensures p + a <= p + b
  {
    assert (p + b)[..|p + a|] == p + b[..|a|];
  }

  // ---------------------------------------------------------------------
  // Decimal numerals (strconv.Itoa and the "%d" verb)

  predicate IsDigit(c: char) {
    '0' <= c <= '9'
  }

  function DigitChar(d: nat): (c: char)
    requires d < 10
    ensures IsDigit(c)
  {
    ['0', '1', '2', '3', '4', '5', '6', '7', '8', '9'][d]
  }

  function DigitValue(c: char): (d: nat)
    requires IsDigit(c)
    ensures d < 10
  {
    (c as int - '0' as int) as nat
  }

  lemma DigitRoundTrip(d: nat)
    requires d < 10
    ensures DigitValue(DigitChar(d)) == d
  {
  }

  /** The value a string of decimal digits denotes. */
  function DecimalValue(s: string): nat
    requires forall k :: 0 <= k < |s| ==> IsDigit(s[k])
  {
    if s == [] then 0 else 10 * DecimalValue(s[..|s| - 1]) + DigitValue(s[|s| - 1])
  }

  /** strconv.Itoa on a non-negative int: the shortest decimal numeral. */
  function NatToDecimal(n: nat): (r: string)
    ensures |r| >= 1
    ensures forall k :: 0 <= k < |r| ==> IsDigit(r[k])
    ensures r[0] == '0' ==> n == 0 && r == "0"
  {
    if n < 10 then [DigitChar(n)] else NatToDecimal(n / 10) + [DigitChar(n % 10)]
  }

  /** Reading back the numeral gives the number. */
  lemma {:induction false} NatToDecimalRoundTrip(n: nat)
    ensures DecimalValue(NatToDecimal(n)) == n
  {
    var r := NatToDecimal(n);
    if n < 10 {
      DigitRoundTrip(n);
    } else {
      NatToDecimalRoundTrip(n / 10);
      assert r[..|r| - 1] == NatToDecimal(n / 10);
      DigitRoundTrip(n % 10);
    }
  }

  /** Distinct numbers are printed differently. */
  lemma NatToDecimalInjective(m: nat, n: nat)
    requires NatToDecimal(m) == NatToDecimal(n)
    ensures m == n
  {
    NatToDecimalRoundTrip(m);
    NatToDecimalRoundTrip(n);
  }

  /** The "%d" verb on an int: a minus sign before the magnitude when negative. */
  function IntToDecimal(i: int): (r: string)
    ensures |r| >= 1
    ensures i >= 0 ==> r == NatToDecimal(i)
    ensures i < 0 <==> r[0] == '-'
    ensures i < 0 ==> r[1..] == NatToDecimal(-i)
  {
    if i < 0 then "-" + NatToDecimal(-i) else NatToDecimal(i)
  }

  /** After the possible sign, "%d" prints only digits. */
  lemma IntToDecimalDigits(i: int, j: nat)
    requires 1 <= j < |IntToDecimal(i)|
    ensures IsDigit(IntToDecimal(i)[j])
  {
    var r := IntToDecimal(i);
    if i < 0 {
      assert r[j] == r[1..][j - 1];
    }
  }

  /** Distinct integers are printed differently by "%d". */
  lemma IntToDecimalInjective(i: int, j: int)
    requires IntToDecimal(i) == IntToDecimal(j)
    ensures i == j
  {
    if i < 0 {
      NatToDecimalInjective(-i, -j);
    } else {
      NatToDecimalInjective(i, j);
    }
  }

  // ---------------------------------------------------------------------
  // Prefix and suffix matching

  /** The middle of `s` when it starts with `pre` and ends with `post`
      (not overlapping), and None otherwise. */
  function Between(s: string, pre: string, post: string): (r: Option<string>)
    ensures r.Some? ==> s == pre + r.value + post
  {
    if |pre| + |post| <= |s| && pre == s[..|pre|] && post == s[|s| - |post|..] then
      var m := s[|pre|..|s| - |post|];
      assert s == pre + m + post;
      Some(m)
    else
      None
  }

  /** Matching recovers the middle it was built from. */
  lemma BetweenOf(pre: string, m: string, post: string)
    ensures Between(pre + m + post, pre, post) == Some(m)
  {
    var s := pre + m + post;
    assert s[..|pre|] == pre;
    assert s[|s| - |post|..] == post;
    assert s[|pre|..|s| - |post|] == m;
  }

  /** Two prefixes that disagree somewhere within both of them. */
  predicate Diverge(p: string, q: string) {
    exists i :: 0 <= i < |p| && i < |q| && p[i] != q[i]
  }

  /** A string built on one prefix never matches a diverging prefix. */
  lemma BetweenDiverge(p: string, q: string, m: string, t: string, post: string)
    requires Diverge(p, q)
    ensures Between(q + m + t, p, post).None?
  {
    var i :| 0 <= i < |p| && i < |q| && p[i] != q[i];
    var s := q + m + t;
    assert s[i] == q[i];
    if |p| <= |s| {
      assert s[..|p|][i] == q[i];
    }
  }
}

=== FILE: validator.dfy ===
/** The render-function validator (generateFunction): checks that the
    declared function's last parameter is a bytes.Buffer, optionally behind
    one pointer, and extracts the buffer's name.

    Go's parser is not part of this model: the declaration block comes with
    the abstract outcome of parsing "package Goh\n" followed by its text. */
module Validator {
  import opened Results

  /** The part of Go's expression syntax a parameter type can take here. */
  datatype Expr = Ident(name: string) | Star(x: Expr) | Selector(x: Expr, sel: string) | OtherExpr

  /** One entry of a parameter list: `a, b *bytes.Buffer` is one field with two names. */
  datatype Field = Field(names: seq<string>, typ: Expr)

  datatype Decl = FuncDecl(params: seq<Field>) | OtherDecl

  datatype ParseResult = ParseError(message: string) | Parsed(decls: seq<Decl>)

  /** The DefinedFunction block: its text and what parsing it yielded. */
  datatype FunctionBlock = FunctionBlock(content: string, parsed: ParseResult)

  /** The declaration text to emit and the name of the buffer parameter. */
  datatype Signature = Signature(code: string, bufferName: string)

  /** Why a declaration is refused. NoDeclarations and SelectorBaseNotIdent
      are runtime panics in the Go code (an index out of range and a failed
      type assertion); the others are returned errors. */
  datatype FunctionError =
    | ParseFailed(message: string)
    | NoDeclarations
    | NotAFunction
    | EmptyParameters
    | InvalidBufferParameter
    | SelectorBaseNotIdent

  /** The two type expressions accepted for the buffer parameter. */
  predicate IsBufferType(t: Expr) {
    t == Selector(Ident("bytes"), "Buffer") || t == Star(Selector(Ident("bytes"), "Buffer"))
  }

  /** A parameter type with at most one pointer layer removed. */
  function StripStar(t: Expr): (u: Expr)
    ensures t.Star? ==> u == t.x
    ensures !t.Star? ==> u == t
  {
    if t.Star? then t.x else t
  }

  /** A selector, after stripping one pointer layer, whose base is not a
      plain identifier: the type assertion on the selector's base panics. */
  predicate SelectorOnNonIdent(t: Expr) {
    StripStar(t).Selector? && !StripStar(t).x.Ident?
  }

  /** The type check on the last parameter, in the order the Go code makes it. */
  function CheckBufferType(t: Expr): (r: Result<(), FunctionError>)
    ensures r.Success? <==> IsBufferType(t)
    ensures r == Failure(SelectorBaseNotIdent) <==> SelectorOnNonIdent(t)
    ensures r == Failure(InvalidBufferParameter) <==> !IsBufferType(t) && !SelectorOnNonIdent(t)
  {
    var e := StripStar(t);
    if !e.Selector? then Failure(InvalidBufferParameter)
    else if !e.x.Ident? then Failure(SelectorBaseNotIdent)
    else if e.x.name != "bytes" || e.sel != "Buffer" then Failure(InvalidBufferParameter)
    else Success(())
  }

  /** The last name bound by a parameter field, or "" when it has none. */
  function LastName(f: Field): (n: string)
    ensures f.names != [] ==> n == f.names[|f.names| - 1]
    ensures f.names == [] ==> n == ""
  {
    if |f.names| > 0 then f.names[|f.names| - 1] else ""
  }

  /** generateFunction. */
  function ValidateFunction(b: FunctionBlock): (r: Result<Signature, FunctionError>)
    ensures r.Success? <==>
      && b.parsed.Parsed?
      && |b.parsed.decls| > 0
      && b.parsed.decls[0].FuncDecl?
      && |b.parsed.decls[0].params| > 0
      && IsBufferType(b.parsed.decls[0].params[|b.parsed.decls[0].params| - 1].typ)
    ensures r.Success? ==> r.value.code == b.content
    ensures r.Success? ==> var ps := b.parsed.decls[0].params;
      r.value.bufferName == LastName(ps[|ps| - 1])
    ensures b.parsed.ParseError? ==> r == Failure(ParseFailed(b.parsed.message))
    ensures b.parsed.Parsed? && b.parsed.decls == [] ==> r == Failure(NoDeclarations)
    ensures b.parsed.Parsed? && b.parsed.decls != [] && !b.parsed.decls[0].FuncDecl? ==>
      r == Failure(NotAFunction)
    ensures b.parsed.Parsed? && b.parsed.decls != [] && b.parsed.decls[0] == FuncDecl([]) ==>
      r == Failure(EmptyParameters)
  {
    match b.parsed
    case ParseError(msg) => Failure(ParseFailed(msg))
    case Parsed(decls) =>
      if |decls| == 0 then Failure(NoDeclarations)
      else if !decls[0].FuncDecl? then Failure(NotAFunction)
      else
        var params := decls[0].params;
        if |params| == 0 then Failure(EmptyParameters)
        else
          var last := params[|params| - 1];
          var _ :- CheckBufferType(last.typ);
          Success(Signature(b.content, LastName(last)))
  }

  /** A function whose last parameter has the wrong type fails with the
      error of the type check: the assertion panic for a selector on a
      non-identifier, and InvalidBufferParameter otherwise. */
  lemma ValidateFunctionBufferError(content: string, params: seq<Field>, rest: seq<Decl>)
    requires params != []
    ensures var r := ValidateFunction(FunctionBlock(content, Parsed([FuncDecl(params)] + rest)));
      var last := params[|params| - 1].typ;
      && (SelectorOnNonIdent(last) ==> r == Failure(SelectorBaseNotIdent))
      && (!IsBufferType(last) && !SelectorOnNonIdent(last) ==> r == Failure(InvalidBufferParameter))
  {
    var decls := [FuncDecl(params)] + rest;
    assert decls[0] == FuncDecl(params);
  }

  /** A pointer to a pointer to a buffer is refused: only one layer is stripped. */
  lemma DoublePointerRejected(content: string, names: seq<string>)
    ensures ValidateFunction(FunctionBlock(content, Parsed([FuncDecl([Field(names, Star(Star(Selector(Ident("bytes"), "Buffer"))))])])))
      == Failure(InvalidBufferParameter)
  {
  }

  /** Only the last parameter is inspected: earlier parameters may have any type. */
  lemma OnlyLastParameterMatters(content: string, ps: seq<Field>, qs: seq<Field>, last: Field)
    ensures ValidateFunction(FunctionBlock(content, Parsed([FuncDecl(ps + [last])])))
         == ValidateFunction(FunctionBlock(content, Parsed([FuncDecl(qs + [last])])))
  {
  }

  /** No parameters, an `int` buffer, and a named `*bytes.Buffer` or `bytes.Buffer`. */
  lemma ValidatorExamples(content: string)
    ensures ValidateFunction(FunctionBlock(content, Parsed([FuncDecl([])]))) == Failure(EmptyParameters)
    ensures ValidateFunction(FunctionBlock(content, Parsed([FuncDecl([Field(["x"], Ident("int"))])])))
      == Failure(InvalidBufferParameter)
    ensures ValidateFunction(FunctionBlock(content, Parsed([FuncDecl([Field(["w"], Star(Selector(Ident("bytes"), "Buffer")))])])))
      == Success(Signature(content, "w"))
    ensures ValidateFunction(FunctionBlock(content, Parsed([FuncDecl([Field(["w"], Selector(Ident("bytes"), "Buffer"))])])))
      == Success(Signature(content, "w"))
  {
  }

  /** An unnamed buffer parameter is accepted and yields an empty buffer
      name, which later produces statements with no receiver. */
  lemma UnnamedBufferAccepted(content: string)
    ensures ValidateFunction(FunctionBlock(content, Parsed([FuncDecl([Field([], Star(Selector(Ident("bytes"), "Buffer")))])])))
      == Success(Signature(content, ""))
  {
  }

  // ---------------------------------------------------------------------
  // Error messages

  const IndexPanicText := "runtime error: index out of range [0] with length 0"
  const NotAFunctionText := "definition is not a function type"
  const EmptyParametersText := "function parameters should not be empty"
  const AssertionPanicText := "interface conversion: ast.Expr is not *ast.Ident"
  const WrongBufferText := "the last function parameter should be a bytes.Buffer or *bytes.Buffer"

  /** The message each returned error carries in the Go code. The
      wrong-buffer-type case reuses the empty-parameter-list text. */
  function SourceMessage(e: FunctionError): (m: string)
    ensures e == EmptyParameters || e == InvalidBufferParameter ==> m == EmptyParametersText
  {
    match e
    case ParseFailed(msg) => msg
    case NoDeclarations => IndexPanicText
    case NotAFunction => NotAFunctionText
    case EmptyParameters => EmptyParametersText
    case InvalidBufferParameter => EmptyParametersText
    case SelectorBaseNotIdent => AssertionPanicText
  }

  /** As written, a declaration with a parameter of the wrong type is
      reported as having no parameters at all. */
  lemma SourceMessageMisreportsWrongType(content: string)
    ensures var r := ValidateFunction(FunctionBlock(content, Parsed([FuncDecl([Field(["x"], Ident("int"))])])));
      r.Failure? && SourceMessage(r.error) == SourceMessage(EmptyParameters)
  {
  }

  /** The messages with the wrong-type case reported as such: they differ
      from the Go code's exactly for that case. */
  function Message(e: FunctionError): (m: string)
    ensures m == SourceMessage(e) <==> e != InvalidBufferParameter
  {
    match e
    case InvalidBufferParameter => WrongBufferText
    case _ => SourceMessage(e)
  }

  /** The corrected messages tell the refusals the Go code returns apart. */
  lemma MessageDistinguishesReturnedErrors(e1: FunctionError, e2: FunctionError)
    requires !e1.ParseFailed? && !e2.ParseFailed?
    requires Message(e1) == Message(e2)
    ensures e1 == e2
  {
    MessageLength(e1);
    MessageLength(e2);
  }

  /** The lengths of the corrected messages, all different. */
  lemma MessageLength(e: FunctionError)
    requires !e.ParseFailed?
    ensures |Message(e)| == match e
      case NoDeclarations => 51
      case NotAFunction => 33
      case EmptyParameters => 39
      case InvalidBufferParameter => 69
      case _ => 48
  {
  }
}
